=== FILE: README.md ===
# Carbon footprint, air quality and city emissions — a Dafny model

This project models the computational core of a small climate-awareness web
application with three interactive pieces:

- the **carbon footprint calculator**. It turns five household inputs into
  yearly tonnes of CO₂-equivalent:
  - car kilometres per year;
  - flight hours per year;
  - monthly electricity in kWh;
  - a diet label;
  - monthly waste in kg.

  From those it derives a per-category breakdown, a Low / Moderate / High /
  Very High rating, the difference from a 4.7 t global average, and a list of
  personalised recommendations.
- the **air quality monitor**. It reads the latest hourly reading from an
  air-quality response and keeps a loading / error / data state for the
  request. It maps the US AQI to one of six categories, and to "Unknown" when
  there is no reading, each with its styling and an advisory message.
- the **India emissions map**. It holds a fixed table of 25 cities. It colours
  and sizes a marker for each city from its emissions, shows a per-capita
  figure, and computes summary statistics: the city count, the combined
  emissions, an average per-capita figure, and the ten top emitters.

Numbers are exact `real`s. A numeric form value is `Option<real>`, where `None`
stands for a value that is missing or not a number. A JavaScript `x || 0`
becomes `OrZero`. The carbon rating, the AQI category and the marker colour
are each a chain of `x <= bound` tests over ascending bounds. They share one
reference definition, `Bands.Exceeded`, which counts the bounds a
value lies strictly above. The model proves that each of these three ladders
agrees with that count, and that each is monotone. The advisory message
ladder, which starts with a falsiness test, is related to the AQI category
instead (`AdvisoryMessage`, `ZeroReadingQuirk`), and the rating-label colour to the header colour
(`HeaderColorMatchesRating`).

Modules:

| file | module | contents |
|---|---|---|
| `wrappers.dfy` | `Wrappers` | `Option` |
| `bands.dfy` | `Bands` | the shared threshold-ladder reference |
| `carbon_calculator.dfy` | `CarbonCalculator` | form state, estimate, rating, average comparison, recommendations |
| `air_quality_monitor.dfy` | `AirQualityMonitor` | AQI categories, advisory messages, reading extraction, fetch state |
| `india_emissions_map.dfy` | `IndiaEmissionsMap` | city table, marker colour and radius, per capita, summary statistics |

Two consequences of the code are worth stating:

- Negative form inputs are not clamped. They flow through the factors
  unchanged, so `NonNegativeInputsGiveNonNegativeResults` takes non-negative
  inputs as its precondition.
- A vegan with every other input at zero totals 1.5 t, which the first band
  (`total <= 2`) rates Low (`VeganOnlyEstimate`).

## Model

| member | source | states |
|---|---|---|
| Bands.Exceeded | src/components/CarbonCalculator.jsx:50 | The number of bounds exceeded is at most the number of bounds. It is 0 exactly when the value lies at or below every bound. This is the reference that every ladder (rating, AQI, marker colour) is proved against. |
| Bands.ExceededMonotone | src/components/IndiaEmissionsMap.jsx:39-45 | A larger value never exceeds fewer bounds, so every ladder built on it is monotone. |
| CarbonCalculator.HandleChange | src/components/CarbonCalculator.jsx:24-27 | Editing the field named `name` leaves every other field as it was. The diet field takes the raw text. A numeric field takes the parsed number. |
| CarbonCalculator.HandleChangeIsolatesCategories | src/components/CarbonCalculator.jsx:24-46 | After one edit to the form, every category of the estimate whose field was not edited keeps its value. |
| CarbonCalculator.CategoryDependsOnOwnField | src/components/CarbonCalculator.jsx:30-34 | Two input sets that agree on a category's field give that category the same value. |
| CarbonCalculator.DietValue | src/components/CarbonCalculator.jsx:5-11 | An unknown diet label is worth 0 (the `?? 0` fallback). A known label is worth between 1.5 and 5.0 t. |
| CarbonCalculator.Estimate | src/components/CarbonCalculator.jsx:29-46 | The breakdown has one slice per category, in the table order and with the display names. Each slice carries that category's value. The slices sum to the total. |
| CarbonCalculator.TotalIsSumOfCategories | src/components/CarbonCalculator.jsx:35 | The total is the sum of the five category values. |
| CarbonCalculator.CategoriesAreLinear | src/components/CarbonCalculator.jsx:30-34 | A missing, NaN or zero input contributes 0. Any other input contributes input × factor, with the monthly electricity and waste figures multiplied by 12. |
| CarbonCalculator.DietTable | src/components/CarbonCalculator.jsx:5-11 | Gives the value of each of the five diet labels, and 0 for any other label. The values rise strictly along the selector's order. |
| CarbonCalculator.RaisingOneInputRaisesTotal | src/components/CarbonCalculator.jsx:30-35 | Raising one numeric input, with the others fixed, raises that category and the total. No other category changes. |
| CarbonCalculator.NonNegativeInputsGiveNonNegativeResults | src/components/CarbonCalculator.jsx:30-35 | Non-negative inputs give non-negative categories. The diet value is then a lower bound on the total. |
| CarbonCalculator.RatingFor | src/components/CarbonCalculator.jsx:50 | Each rating holds exactly on its interval: Low ≤ 2, Moderate in (2, 5], High in (5, 8], Very High > 8. |
| CarbonCalculator.RatingCountsBreakpoints | src/components/CarbonCalculator.jsx:50 | The rating's position equals the number of breakpoints (2, 5, 8) the total exceeds. |
| CarbonCalculator.RatingMonotone | src/components/CarbonCalculator.jsx:50 | A larger total never gets a milder rating. |
| CarbonCalculator.RatingColor | src/components/CarbonCalculator.jsx:51 | Each rating's label selects the impact colour at that rating's position. Any other text selects the last colour, red. The page computes this colour but never displays it: the header uses its own ladder (lines 155-163). |
| CarbonCalculator.HeaderColor | src/components/CarbonCalculator.jsx:155-163 | The header colour is the impact colour at the position of the total's rating. It equals the colour the rating's label selects. |
| CarbonCalculator.HeaderColorMatchesRating | src/components/CarbonCalculator.jsx:51 | The colour the header displays, chosen from the total (lines 155-163), equals the unused label-based colour of line 51. The agreement shows the two ladders are consistent; it does not describe a second displayed colour. No two ratings share a colour. |
| CarbonCalculator.CompareToAverage | src/components/CarbonCalculator.jsx:172-174 | With the difference from the 4.7 t average taken as at lines 48-49: a total at or below 4.7 t is below average; any other total is above it. The shown margin is non-negative, and the average plus or minus the margin gives back the total. |
| CarbonCalculator.Recommendations | src/components/CarbonCalculator.jsx:53-62 | Returns between one and five tips. When the encouragement appears, it is the only tip. |
| CarbonCalculator.TriggeredContents | src/components/CarbonCalculator.jsx:55-59 | The threshold filter over any list of categories returns advice for exactly those categories above their thresholds. It never returns the encouragement. |
| CarbonCalculator.TriggeredOrdered | src/components/CarbonCalculator.jsx:55-59 | The filter keeps the order of the categories it is given. |
| CarbonCalculator.RecommendationsFollowRuleTable | src/components/CarbonCalculator.jsx:53-62 | The five explicit tests give exactly the filter over the category table. The encouragement takes the place of an empty result. |
| CarbonCalculator.CategoriesComplete | src/components/CarbonCalculator.jsx:37-43 | Every category appears in the table. |
| CarbonCalculator.AdviceExactlyWhenAboveThreshold | src/components/CarbonCalculator.jsx:55-59 | A category's advice appears if and only if its value is strictly above its threshold: car > 1, air > 1, electricity > 1, diet > 3, waste > 0.5. |
| CarbonCalculator.EncouragementExactlyWhenNothingExceeds | src/components/CarbonCalculator.jsx:60 | The encouragement appears if and only if no category is above its threshold. |
| CarbonCalculator.RecommendationsOrdered | src/components/CarbonCalculator.jsx:55-59 | Tips appear in the order car, air, electricity, diet, waste, each at most once. |
| CarbonCalculator.TipTextInjective | src/components/CarbonCalculator.jsx:55-60 | Different tips show different messages, so the facts proved about tips hold for the strings the list shows. |
| CarbonCalculator.RecommendationTextsDistinct | src/components/CarbonCalculator.jsx:53-62 | No message appears twice in the recommendation list. |
| CarbonCalculator.DietAdviceForMeatHeavyDiets | src/components/CarbonCalculator.jsx:58 | Diet advice appears exactly for Medium Meat and Heavy Meat. Light Meat sits at the 3.0 threshold and does not trigger it. |
| CarbonCalculator.DefaultEstimate | src/components/CarbonCalculator.jsx:16-22 | The starting inputs give 1.6, 0.9, 1.26, 4.0 and 0.432 t, so 8.192 t in all. That is rated Very High and is 3.492 t above average. It draws the car, electricity and diet advice in that order. |
| CarbonCalculator.VeganOnlyEstimate | src/components/CarbonCalculator.jsx:50 | A vegan with every other input at zero emits 1.5 t, is rated Low, and gets only the encouragement. |
| AirQualityMonitor.AqiCategory | src/components/AirQualityMonitor.jsx:4-12 | A missing reading is Unknown. Each other category holds exactly on its AQI interval: ≤ 50, (50, 100], (100, 150], (150, 200], (200, 300], > 300. |
| AirQualityMonitor.SeverityCountsBounds | src/components/AirQualityMonitor.jsx:6-11 | A reading's severity is one more than the number of AQI bounds it exceeds. |
| AirQualityMonitor.CategoryMonotone | src/components/AirQualityMonitor.jsx:6-11 | A higher AQI never gets a milder category. |
| AirQualityMonitor.AdvisoryMessage | src/components/AirQualityMonitor.jsx:60-72 | For every input except a reading of exactly 0, the message is that of the reading's category, a missing reading included. A reading of exactly 0 gets the Unknown message. |
| AirQualityMonitor.ZeroReadingQuirk | src/components/AirQualityMonitor.jsx:60-61 | An AQI of 0 is categorised Good, but its message is the "unable to determine" one, because the message test is a falsiness test. |
| AirQualityMonitor.LastIndex | src/components/AirQualityMonitor.jsx:33 | With a non-empty time axis, the index is that axis's last position. Otherwise it is 0. |
| AirQualityMonitor.At | src/components/AirQualityMonitor.jsx:35-42 | An index inside the series gives that entry. An index outside gives nothing, as an out-of-range array read gives `undefined`. |
| AirQualityMonitor.ExtractReading | src/components/AirQualityMonitor.jsx:32-43 | The reading's time is the last timestamp, present exactly when the time axis is non-empty. Each pollutant's level is its series entry at that same last index, whenever the series reaches that index, even if it is longer than the time axis. A missing series, or one too short to reach the index, gives no level. |
| AirQualityMonitor.ReadingOf | src/components/AirQualityMonitor.jsx:32-43 | A reply with an `hourly` block gives the reading extracted from that block. A reply without one gives a reading with no time and no levels, as the empty-object fallback of line 32 does. |
| AirQualityMonitor.MissingHourlyGivesEmptyReading | src/components/AirQualityMonitor.jsx:32 | A response with no hourly block gives a reading with no time and no levels. |
| AirQualityMonitor.AlignedSeriesGiveLatestValue | src/components/AirQualityMonitor.jsx:33-42 | A series as long as the time axis yields its own last value. |
| AirQualityMonitor.UntimedSeriesGiveFirstValue | src/components/AirQualityMonitor.jsx:33-42 | Without a time axis, the index falls back to 0, so a series yields its first value. |
| AirQualityMonitor.ShortSeriesGiveNoValue | src/components/AirQualityMonitor.jsx:33-42 | A series shorter than the time axis yields no value. |
| AirQualityMonitor.StartFetch | src/components/AirQualityMonitor.jsx:22-23 | Starting a request sets loading, clears the error and keeps the previous data. |
| AirQualityMonitor.ErrorText | src/components/AirQualityMonitor.jsx:46 | The shown error is never empty. A non-empty message is shown as it is, and an empty one becomes "Error". |
| AirQualityMonitor.FinishFetch | src/components/AirQualityMonitor.jsx:29-49 | After the request, loading is off. A success stores the position with the reading extracted from the reply's `hourly` block, or an empty reading when the block is missing, and leaves the error as it was. A failure leaves the data as they were and shows the thrown message through the "Error" fallback. The thrown message is the rejection's message, "Failed to load air quality" for a non-OK response, or the decoder's message. |
| AirQualityMonitor.FetchAirQuality | src/components/AirQualityMonitor.jsx:20-50 | Afterwards loading is off. The error is absent exactly when the request succeeded, and the data is then the coordinates with the reading extracted from the reply's `hourly` block, or an empty reading when the block is missing. On failure, the data is unchanged and a non-empty error is shown. A non-OK response shows "Failed to load air quality". A rejection or an undecodable body shows its message, or "Error" when that is empty. |
| AirQualityMonitor.AdvisoryFor | src/components/AirQualityMonitor.jsx:57-74 | The category is the AQI category of the current reading's `us_aqi` level, and the style is that category's style. With no data, the advisory is Unknown with its message. Unless the AQI is exactly 0, the message is the category's message. An AQI of exactly 0 is categorised Good but gets the "unable to determine" message. |
| IndiaEmissionsMap.ColorForEmissions | src/components/IndiaEmissionsMap.jsx:39-45 | The colour is from the five-colour palette. Each colour holds exactly on its interval: ≤ 5, (5, 10], (10, 20], (20, 40], > 40 Mt. |
| IndiaEmissionsMap.ColorCountsBounds | src/components/IndiaEmissionsMap.jsx:39-45 | The colour is the palette entry at the number of emission bounds exceeded. |
| IndiaEmissionsMap.ColorIndex | src/components/IndiaEmissionsMap.jsx:39-45 | The palette position of a city's colour: a valid index whose palette entry is the colour chosen by the ladder. |
| IndiaEmissionsMap.ColorMonotone | src/components/IndiaEmissionsMap.jsx:39-45 | A larger emitter never gets an earlier palette colour. |
| IndiaEmissionsMap.MarkerRadius | src/components/IndiaEmissionsMap.jsx:85 | The radius lies in [6, 26]. It equals the emissions inside that range, 6 below it and 26 above it. |
| IndiaEmissionsMap.PerCapita | src/components/IndiaEmissionsMap.jsx:93 | With a non-zero population, the figure is emissions divided by population, and multiplying it back by the population gives the emissions. With a zero population there is no figure. |
| IndiaEmissionsMap.TotalEmissionsBoundsEntries | src/components/IndiaEmissionsMap.jsx:60 | When no city's emissions are negative, the combined figure is non-negative and at least each city's emissions. |
| IndiaEmissionsMap.TotalPopulationBoundsEntries | src/components/IndiaEmissionsMap.jsx:61 | When every population is positive, a non-empty list has a positive total population, at least each city's. |
| IndiaEmissionsMap.TotalsOfConcat | src/components/IndiaEmissionsMap.jsx:60-61 | The emission and population sums of two joined lists are the sums of the parts. |
| IndiaEmissionsMap.Insert | src/components/IndiaEmissionsMap.jsx:63 | Inserting a city adds exactly that city to the list's multiset. |
| IndiaEmissionsMap.InsertKeepsSorted | src/components/IndiaEmissionsMap.jsx:63 | Inserting into a list sorted by decreasing emissions keeps it sorted. |
| IndiaEmissionsMap.SortByEmissions | src/components/IndiaEmissionsMap.jsx:63 | The sorted copy is a permutation of the input, in non-increasing order of emissions. |
| IndiaEmissionsMap.SplitSorted | src/components/IndiaEmissionsMap.jsx:63 | Cutting a sorted list leaves a sorted prefix. Together the two parts hold the list's entries. Nothing after the cut exceeds anything before it. |
| IndiaEmissionsMap.TopEmitters | src/components/IndiaEmissionsMap.jsx:63 | The top-n list has min(n, count) entries and is sorted by decreasing emissions. It is drawn from the input without duplication. Every city left out emits no more than any city kept. |
| IndiaEmissionsMap.MillionsCancel | src/components/IndiaEmissionsMap.jsx:62 | Scaling the population and the result by a million cancels out, leaving combined / population / count. |
| IndiaEmissionsMap.AveragePerCapita | src/components/IndiaEmissionsMap.jsx:58-62 | The average exists exactly when the total population is non-zero. It equals combined / population / count, and multiplied back by the population and the count it gives the combined emissions. |
| IndiaEmissionsMap.ComputeStats | src/components/IndiaEmissionsMap.jsx:58-65 | The statistics hold the city count, the combined emissions and the average per-capita figure. They also hold up to ten cities, sorted by decreasing emissions and drawn from the list, such that no city left out emits more than one kept. |
| IndiaEmissionsMap.TablePopulationsPositive | src/components/IndiaEmissionsMap.jsx:5-37 | Every city in the table has a positive population, so every per-capita figure exists. |
| IndiaEmissionsMap.RegionEmissions | src/components/IndiaEmissionsMap.jsx:5-37 | The regional groups emit 95, 84, 108, 43, 5.5 and 19 Mt. |
| IndiaEmissionsMap.RegionPopulations | src/components/IndiaEmissionsMap.jsx:5-37 | The regional groups hold 28.2, 39.6, 44.8, 20, 1.25 and 6.9 million people. |
| IndiaEmissionsMap.TableSumsFromRegions | src/components/IndiaEmissionsMap.jsx:5-37 | The table's sums are the sums of its regional groups. |
| IndiaEmissionsMap.TableTotals | src/components/IndiaEmissionsMap.jsx:5-37 | The table has 25 cities, 354.5 Mt of combined emissions and 140.75 million people. |
| IndiaEmissionsMap.TableStats | src/components/IndiaEmissionsMap.jsx:58-65 | For the table, the summary shows 25 cities, 354.5 Mt combined, and a ten-city top list. |
| IndiaEmissionsMap.TableAverage | src/components/IndiaEmissionsMap.jsx:62 | For the table, the average per-capita figure is 354.5 / 140.75 / 25. |
| IndiaEmissionsMap.TableCityNamesDistinct | src/components/IndiaEmissionsMap.jsx:7-36 | No two table rows share a city name, so the top-emitter list's keys are unique. |

## Left out

- Rendering is not modelled. That covers the JSX layout, the pie chart, the
  icons, the hero section, the application shell and the map legend; none of
  it computes anything the core depends on.
- `toFixed` rounding and IEEE-754 double arithmetic are not modelled. The
  model computes with exact reals, so the worked figures (for example 8.192 t)
  are the exact values rather than the rounded doubles a browser shows.
- `Number(text)` parsing is a function parameter of `HandleChange`. JavaScript
  string-to-number conversion is not modelled.
- CarbonCalculator.HandleChange: for a field name outside the form's five, the
  model leaves the five fields unchanged. It does not model the extra key
  that the object spread would add, because the form never produces such
  names.
- CarbonCalculator.DietValue: JavaScript's inherited-property look-up is not
  modelled. The model treats only the five table labels as known.
- Clamping negative inputs to zero is not modelled, because the code does not
  clamp them. Negative figures flow through unchanged.
- The geolocation handlers of the monitor and the map are not modelled. The
  browser's position is a parameter of `FetchAirQuality`, and the user's map
  marker is not modelled.
- The HTTP request, the URL parameters and JSON decoding are not modelled. The
  network's answer is the `Outcome` parameter. It is either an OK or non-OK
  response, whose body can or cannot be read into a payload, or a rejected
  request with its message.
- AirQualityMonitor.AqiCategory: a non-numeric AQI value is not modelled,
  because the reading is typed as a number or absent.
- AirQualityMonitor.FetchAirQuality: only the final state is modelled. The
  intermediate renders between `setLoading(true)` and the last update are not.
  A body that cannot be read into a payload shows the thrown message, as the
  catch block does. That covers invalid JSON, and also a JSON `null`, whose
  `hourly` look-up throws.
- AirQualityMonitor.FetchAirQuality: one request at a time; overlapping
  requests and their completion order are not modelled. Each location click
  makes a new `coords` object, so the effect can start a second request while
  an earlier one is pending. The first to finish then turns `loading` off
  early, and the last to finish decides `data`.
- IndiaEmissionsMap.PerCapita: a zero population gives no figure. JavaScript
  would give Infinity or NaN; the model gives `None`.
- IndiaEmissionsMap.AveragePerCapita: a zero total population gives no figure.
  JavaScript would give Infinity or NaN; the model gives `None`.
- IndiaEmissionsMap.SortByEmissions: the sort is stable by construction, so
  equal emitters keep their table order. That stability is not stated as a
  contract.
- IndiaEmissionsMap.TableStats: the names of the ten top emitters in the table
  are not derived. Unfolding the sort over the 25-row literal table is too
  costly for the verifier. The general `TopEmitters` contract covers what the
  list must satisfy.
- Latitude, longitude and source labels of the cities are carried as data. No
  property is stated about them, beyond the distinctness of city names.

=== FILE: air_quality_monitor.dfy ===
/** The air-quality panel: the US AQI category of a reading, the advisory
    message shown beside it, the extraction of the latest hourly reading from
    the provider's reply, and the loading/error/data state around one fetch. */
module AirQualityMonitor {
  import opened Wrappers
  import Bands

  // ---------------------------------------------------------------------------
  // AQI categories
  // ---------------------------------------------------------------------------

  /** The six categories of the US EPA Air Quality Index, plus Unknown for a
      missing value. */
  datatype Category =
    | Unknown
    | Good
    | Moderate
    | SensitiveGroups
    | Unhealthy
    | VeryUnhealthy
    | Hazardous

  /** How a category is displayed: its title (the label shown) and two style classes. */
  datatype Style = Style(title: string, color: string, bg: string)

  function StyleOf(c: Category): Style
  {
    match c
    case Unknown => Style("Unknown", "text-neutral-300", "bg-white/5")
    case Good => Style("Good", "text-emerald-400", "bg-emerald-500/10")
    case Moderate => Style("Moderate", "text-yellow-400", "bg-yellow-500/10")
    case SensitiveGroups => Style("Unhealthy for Sensitive Groups", "text-orange-400", "bg-orange-500/10")
    case Unhealthy => Style("Unhealthy", "text-red-400", "bg-red-500/10")
    case VeryUnhealthy => Style("Very Unhealthy", "text-purple-400", "bg-purple-500/10")
    case Hazardous => Style("Hazardous", "text-fuchsia-400", "bg-fuchsia-500/10")
  }

  /** Upper bounds (inclusive) of Good, Moderate, Sensitive Groups, Unhealthy
      and Very Unhealthy; anything above the last is Hazardous. */
  const AqiBounds: seq<real> := [50.0, 100.0, 150.0, 200.0, 300.0]

  /** Severity from Good (1) to Hazardous (6); Unknown is 0. */
  function Severity(c: Category): nat
  {
    match c
    case Unknown => 0
    case Good => 1
    case Moderate => 2
    case SensitiveGroups => 3
    case Unhealthy => 4
    case VeryUnhealthy => 5
    case Hazardous => 6
  }

  /** The category of an AQI value: Unknown exactly for a missing value, and
      otherwise exactly one of six bands closed at their upper bound. */
  function AqiCategory(aqi: Option<real>): (c: Category)
    ensures c == Unknown <==> aqi.None?
    ensures c == Good <==> aqi.Some? && aqi.value <= 50.0
    ensures c == Moderate <==> aqi.Some? && 50.0 < aqi.value <= 100.0
    ensures c == SensitiveGroups <==> aqi.Some? && 100.0 < aqi.value <= 150.0
    ensures c == Unhealthy <==> aqi.Some? && 150.0 < aqi.value <= 200.0
    ensures c == VeryUnhealthy <==> aqi.Some? && 200.0 < aqi.value <= 300.0
    ensures c == Hazardous <==> aqi.Some? && 300.0 < aqi.value
  {
    match aqi
    case None => Unknown
    case Some(v) =>
      if v <= 50.0 then Good
      else if v <= 100.0 then Moderate
      else if v <= 150.0 then SensitiveGroups
      else if v <= 200.0 then Unhealthy
      else if v <= 300.0 then VeryUnhealthy
      else Hazardous
  }

  /** The severity of a present value is one more than the number of bounds it exceeds. */
  lemma SeverityCountsBounds(v: real)
    ensures Severity(AqiCategory(Some(v))) == 1 + Bands.Exceeded(AqiBounds, v)
  {
    var b := AqiBounds;
    assert b[1..] == [100.0, 150.0, 200.0, 300.0];
    assert b[1..][1..] == [150.0, 200.0, 300.0];
    assert b[1..][1..][1..] == [200.0, 300.0];
    assert b[1..][1..][1..][1..] == [300.0];
    assert b[1..][1..][1..][1..][1..] == [];
    assert Bands.Exceeded(b[1..][1..][1..][1..][1..], v) == 0;
    assert Bands.Exceeded(b[1..][1..][1..][1..], v) == if v > 300.0 then 1 else 0;
    assert Bands.Exceeded(b[1..][1..][1..], v) == (if v > 200.0 then 1 else 0) + (if v > 300.0 then 1 else 0);
    assert Bands.Exceeded(b[1..][1..], v) ==
      (if v > 150.0 then 1 else 0) + (if v > 200.0 then 1 else 0) + (if v > 300.0 then 1 else 0);
    assert Bands.Exceeded(b[1..], v) ==
      (if v > 100.0 then 1 else 0) + (if v > 150.0 then 1 else 0) + (if v > 200.0 then 1 else 0)
      + (if v > 300.0 then 1 else 0);
  }

  /** A higher AQI never falls in a less severe category. */
  lemma CategoryMonotone(v: real, w: real)
    requires v <= w
    ensures Severity(AqiCategory(Some(v))) <= Severity(AqiCategory(Some(w)))
  {
    SeverityCountsBounds(v);
    SeverityCountsBounds(w);
    Bands.ExceededMonotone(AqiBounds, v, w);
  }

  // ---------------------------------------------------------------------------
  // Advisory
  // ---------------------------------------------------------------------------

  /** The message written for each category. */
  function CategoryMessage(c: Category): string
  {
    match c
    case Unknown => "Unable to determine AQI for your location."
    case Good => "Air quality is good. Open windows and enjoy outdoor activities."
    case Moderate => "Moderate air quality. Sensitive individuals should monitor symptoms."
    case SensitiveGroups => "Limit prolonged outdoor exertion if sensitive."
    case Unhealthy => "Unhealthy air. Reduce outdoor activity; wear a mask if needed."
    case VeryUnhealthy => "Very unhealthy. Avoid outdoor activity; air purifier recommended."
    case Hazardous => "Hazardous. Stay indoors with filtration; follow local guidance."
  }

  /** The advisory message. Its own ladder starts from a falsiness test, so
      a reading of exactly 0 is answered like a missing one; every other
      reading gets the message of its category. */
  function AdvisoryMessage(aqi: Option<real>): (m: string)
    ensures aqi != Some(0.0) ==> m == CategoryMessage(AqiCategory(aqi))
    ensures aqi == Some(0.0) ==> m == CategoryMessage(Unknown)
  {
    if aqi.None? || aqi.value == 0.0 then CategoryMessage(Unknown)
    else if aqi.value <= 50.0 then CategoryMessage(Good)
    else if aqi.value <= 100.0 then CategoryMessage(Moderate)
    else if aqi.value <= 150.0 then CategoryMessage(SensitiveGroups)
    else if aqi.value <= 200.0 then CategoryMessage(Unhealthy)
    else if aqi.value <= 300.0 then CategoryMessage(VeryUnhealthy)
    else CategoryMessage(Hazardous)
  }

  /** The one place the two ladders disagree: a reading of exactly 0 is
      labelled Good while its message says the AQI could not be determined. */
  lemma ZeroReadingQuirk()
    ensures AqiCategory(Some(0.0)) == Good
    ensures AdvisoryMessage(Some(0.0)) == CategoryMessage(Unknown)
    ensures AdvisoryMessage(Some(0.0)) != CategoryMessage(AqiCategory(Some(0.0)))
  {
  }

  // ---------------------------------------------------------------------------
  // Latest reading
  // ---------------------------------------------------------------------------

  /** The hourly series the panel requests. */
  datatype Pollutant = Pm10 | Pm2_5 | CarbonMonoxide | Ozone | NitrogenDioxide | SulphurDioxide | UsAqi

  /** The `hourly` object of the reply: an optional list of timestamps and,
      for each series present, its list of values (`None` for a JSON null). */
  datatype Hourly = Hourly(time: Option<seq<string>>, series: map<Pollutant, seq<Option<real>>>)

  /** The decoded reply; `hourly` may be missing. */
  datatype Payload = Payload(hourly: Option<Hourly>)

  /** The values of one hour; a pollutant without a value has no key. */
  datatype Reading = Reading(time: Option<string>, levels: map<Pollutant, real>)
  {
    function Level(p: Pollutant): Option<real>
    {
      if p in levels then Some(levels[p]) else None
    }
  }

  /** The index read from every series: the last timestamp's, or 0 when the
      timestamps are missing or empty. */
  function LastIndex(h: Hourly): (i: nat)
    ensures h.time.Some? && h.time.value != [] ==> i < |h.time.value| && i + 1 == |h.time.value|
    ensures h.time.None? || h.time.value == [] ==> i == 0
  {
    if h.time.Some? && |h.time.value| > 0 then |h.time.value| - 1 else 0
  }

  /** The element of a series at `i`, absent when the index is out of range. */
  function At<T>(s: seq<T>, i: nat): (x: Option<T>)
    ensures x.Some? <==> i < |s|
    ensures x.Some? ==> x.value == s[i]
  {
    if i < |s| then Some(s[i]) else None
  }

  /** The value of series `p` at index `i`, absent when the series is
      missing, too short, or null there. */
  function LevelAt(h: Hourly, p: Pollutant, i: nat): Option<real>
  {
    if p in h.series then At(h.series[p], i).OrElse(None) else None
  }

  /** The latest reading: each series read at `LastIndex`. */
  function ExtractReading(h: Hourly): (r: Reading)
    ensures r.time.Some? <==> h.time.Some? && h.time.value != []
    ensures r.time.Some? ==> r.time.value == h.time.value[|h.time.value| - 1]
    ensures forall p: Pollutant :: r.Level(p) == LevelAt(h, p, LastIndex(h))
    ensures forall p: Pollutant :: p in h.series && LastIndex(h) < |h.series[p]| ==>
              r.Level(p) == h.series[p][LastIndex(h)]
    ensures forall p: Pollutant :: p !in h.series || |h.series[p]| <= LastIndex(h) ==> r.Level(p).None?
  {
    var i := LastIndex(h);
    var time := if h.time.Some? then At(h.time.value, i) else None;
    var levels := map p | p in h.series && LevelAt(h, p, i).Some? :: LevelAt(h, p, i).value;
    Reading(time, levels)
  }

  /** The reading of a whole reply; a reply without `hourly` reads as an empty one. */
  function ReadingOf(json: Payload): (r: Reading)
    ensures json.hourly.Some? ==> r == ExtractReading(json.hourly.value)
    ensures json.hourly.None? ==> r == Reading(None, map[])
  {
    ExtractReading(json.hourly.OrElse(Hourly(None, map[])))
  }

  /** A reply without `hourly` gives a reading with no time and no values. */
  lemma MissingHourlyGivesEmptyReading(json: Payload)
    requires json.hourly.None?
    ensures ReadingOf(json).time.None?
    ensures forall p: Pollutant :: ReadingOf(json).Level(p).None?
  {
  }

  /** When the timestamps are present and a series has one value per
      timestamp, the reading holds that series' last value. */
  lemma AlignedSeriesGiveLatestValue(h: Hourly, p: Pollutant)
    requires h.time.Some? && h.time.value != []
    requires p in h.series && |h.series[p]| == |h.time.value|
    ensures ExtractReading(h).Level(p) == h.series[p][|h.series[p]| - 1]
  {
  }

  /** Without timestamps the index falls back to 0, so a series is read at
      its first entry, not its last. */
  lemma UntimedSeriesGiveFirstValue(h: Hourly, p: Pollutant)
    requires h.time.None?
    requires p in h.series && h.series[p] != []
    ensures ExtractReading(h).Level(p) == h.series[p][0]
  {
  }

  /** A series shorter than the timestamps has no value at the latest hour. */
  lemma ShortSeriesGiveNoValue(h: Hourly, p: Pollutant)
    requires h.time.Some? && h.time.value != []
    requires p in h.series && |h.series[p]| < |h.time.value|
    ensures ExtractReading(h).Level(p).None?
  {
  }

  // ---------------------------------------------------------------------------
  // Fetch state
  // ---------------------------------------------------------------------------

  datatype Coords = Coords(latitude: real, longitude: real)

  /** What the panel shows once a fetch has succeeded. */
  datatype Data = Data(coords: Coords, reading: Reading)

  /** The panel's state: a fetch in flight, the error to show, the last data. */
  datatype Status = Status(loading: bool, error: Option<string>, data: Option<Data>)

  /** The body of a response: a payload, or a body that cannot be read into
      one (invalid JSON, or `null`, whose `hourly` look-up throws), with the
      message thrown. */
  datatype Body = Decoded(json: Payload) | Undecodable(message: string)

  /** How the request ended: a response with its `ok` flag, or a rejection
      (network failure) with its message. */
  datatype Outcome = Responded(ok: bool, body: Body) | Rejected(message: string)

  const FailedToLoad: string := "Failed to load air quality"

  /** Whether the outcome yields data. */
  predicate Succeeds(outcome: Outcome)
  {
    outcome.Responded? && outcome.ok && outcome.body.Decoded?
  }

  /** The state a fetch starts from: loading, with the error cleared. */
  function StartFetch(s: Status): (t: Status)
    ensures t.loading && t.error.None?
    ensures t.data == s.data
  {
    s.(loading := true, error := None)
  }

  /** The text shown for a caught error: its message, or "Error" when empty. */
  function ErrorText(message: string): (e: string)
    ensures e != []
    ensures message != [] ==> e == message
    ensures message == [] ==> e == "Error"
  {
    if message != [] then message else "Error"
  }

  /** The message of the error a failed request throws: the rejection's
      message, the fixed text for a non-OK response, or the decoder's message
      for a body that cannot be read into a payload. */
  function FailureMessage(outcome: Outcome): string
    requires !Succeeds(outcome)
  {
    match outcome
    case Rejected(m) => m
    case Responded(ok, body) => if !ok then FailedToLoad else body.message
  }

  /** The state once the request has ended. The `finally` turns loading off.
      A success stores the position and the latest reading and leaves the
      error as it was; a failure shows the thrown message through the catch
      block's fallback and leaves the data as they were. */
  function FinishFetch(s: Status, latitude: real, longitude: real, outcome: Outcome): (t: Status)
    ensures !t.loading
    ensures Succeeds(outcome) ==>
              t.error == s.error && t.data == Some(Data(Coords(latitude, longitude), ReadingOf(outcome.body.json)))
    ensures !Succeeds(outcome) ==> t.data == s.data && t.error == Some(ErrorText(FailureMessage(outcome)))
    ensures Succeeds(outcome) && outcome.body.json.hourly.Some? ==>
              t.data == Some(Data(Coords(latitude, longitude), ExtractReading(outcome.body.json.hourly.value)))
    ensures Succeeds(outcome) && outcome.body.json.hourly.None? ==>
              t.data == Some(Data(Coords(latitude, longitude), Reading(None, map[])))
  {
    match outcome
    case Rejected(m) => s.(error := Some(ErrorText(m)), loading := false)
    case Responded(ok, body) =>
      if !ok then s.(error := Some(ErrorText(FailedToLoad)), loading := false)
      else match body
        case Undecodable(m) => s.(error := Some(ErrorText(m)), loading := false)
        case Decoded(json) =>
          s.(data := Some(Data(Coords(latitude, longitude), ReadingOf(json))), loading := false)
  }

  /** One complete fetch for a position. It always ends with loading off. On
      success the error stays cleared and the data become the position and
      the latest reading; on failure the error is a non-empty message and the
      previous data are kept. */
  function FetchAirQuality(s: Status, latitude: real, longitude: real, outcome: Outcome): (t: Status)
    ensures !t.loading
    ensures t.error.None? <==> Succeeds(outcome)
    ensures Succeeds(outcome) ==>
              t.data == Some(Data(Coords(latitude, longitude), ReadingOf(outcome.body.json)))
    ensures !Succeeds(outcome) ==> t.data == s.data && t.error.Some? && t.error.value != []
    ensures outcome.Responded? && !outcome.ok ==> t.error == Some(FailedToLoad)
    ensures outcome.Rejected? ==> t.error == Some(ErrorText(outcome.message))
    ensures outcome.Responded? && outcome.ok && outcome.body.Undecodable? ==>
              t.error == Some(ErrorText(outcome.body.message))
    ensures Succeeds(outcome) && outcome.body.json.hourly.Some? ==>
              t.data == Some(Data(Coords(latitude, longitude), ExtractReading(outcome.body.json.hourly.value)))
    ensures Succeeds(outcome) && outcome.body.json.hourly.None? ==>
              t.data == Some(Data(Coords(latitude, longitude), Reading(None, map[])))
  {
    FinishFetch(StartFetch(s), latitude, longitude, outcome)
  }

  // ---------------------------------------------------------------------------
  // What the panel shows
  // ---------------------------------------------------------------------------

  /** The advisory block: the category of the current AQI and its message. */
  datatype Advisory = Advisory(category: Category, style: Style, message: string)

  /** The AQI of the current data, absent when there are no data yet. */
  function CurrentAqi(data: Option<Data>): Option<real>
  {
    if data.Some? then data.value.reading.Level(UsAqi) else None
  }

  /** The advisory panel for the current data: the category of its AQI with
      that category's style, and the advisory message. */
  function AdvisoryFor(data: Option<Data>): (a: Advisory)
    ensures a.category == AqiCategory(CurrentAqi(data))
    ensures data.Some? ==> a.category == AqiCategory(data.value.reading.Level(UsAqi))
    ensures a.style == StyleOf(a.category)
    ensures data.None? ==> a.category == Unknown && a.message == CategoryMessage(Unknown)
    ensures CurrentAqi(data) != Some(0.0) ==> a.message == CategoryMessage(a.category)
    ensures CurrentAqi(data) == Some(0.0) ==> a.category == Good && a.message == CategoryMessage(Unknown)
  {
    var aqi := CurrentAqi(data);
    var c := AqiCategory(aqi);
    Advisory(c, StyleOf(c), AdvisoryMessage(aqi))
  }
}

=== FILE: bands.dfy ===
/** Threshold ladders. The carbon rating, the AQI category and the marker
    colour are each a chain of `x <= bound` tests over ascending bounds; the
    band such a chain selects is the number of bounds that `x` lies strictly
    above. This module defines that count once and proves the facts those
    ladders share. */
module Bands {

  /** The number of entries of `bounds` that `x` exceeds. */
  function Exceeded(bounds: seq<real>, x: real): (n: nat)
    ensures n <= |bounds|
    ensures n == 0 <==> forall i :: 0 <= i < |bounds| ==> x <= bounds[i]
  {
    if bounds == [] then 0
    else (if x > bounds[0] then 1 else 0) + Exceeded(bounds[1..], x)
  }

  /** A larger value never falls in a lower band. */
  lemma {:induction false} ExceededMonotone(bounds: seq<real>, x: real, y: real)
    requires x <= y
    ensures Exceeded(bounds, x) <= Exceeded(bounds, y)
  {
    if bounds != [] {
      ExceededMonotone(bounds[1..], x, y);
    }
  }
}

=== FILE: carbon_calculator.dfy ===
/** The carbon-footprint estimator: lifestyle inputs are turned into five
    per-category annual emissions (t CO2e/yr), their total, a four-band rating,
    the distance from the global average and an ordered list of tips. */
module CarbonCalculator {
  import opened Wrappers
  import Bands

  // ---------------------------------------------------------------------------
  // Inputs and the form handler
  // ---------------------------------------------------------------------------

  /** The form's record. A numeric field holds the result of `Number(text)`;
      `None` stands for `NaN`, which the estimator's `|| 0` turns into 0. */
  datatype Inputs = Inputs(
    carKmPerYear: Option<real>,
    airHoursPerYear: Option<real>,
    monthlyElectricityKWh: Option<real>,
    dietType: string,
    wasteKgPerMonth: Option<real>)

  /** The record the form starts with. */
  const DefaultInputs: Inputs :=
    Inputs(Some(8000.0), Some(10.0), Some(150.0), "Medium Meat", Some(30.0))

  /** The five emission categories, in the order of the breakdown and of the advice list. */
  datatype Category = Car | Air | Electricity | Diet | Waste

  const Categories: seq<Category> := [Car, Air, Electricity, Diet, Waste]

  /** The `name` attribute of the form control that edits a category's input. */
  function FieldName(c: Category): string
  {
    match c
    case Car => "carKmPerYear"
    case Air => "airHoursPerYear"
    case Electricity => "monthlyElectricityKWh"
    case Diet => "dietType"
    case Waste => "wasteKgPerMonth"
  }

  /** The input record holds the same value for category `c` in `a` and `b`. */
  predicate SameField(a: Inputs, b: Inputs, c: Category)
  {
    match c
    case Car => a.carKmPerYear == b.carKmPerYear
    case Air => a.airHoursPerYear == b.airHoursPerYear
    case Electricity => a.monthlyElectricityKWh == b.monthlyElectricityKWh
    case Diet => a.dietType == b.dietType
    case Waste => a.wasteKgPerMonth == b.wasteKgPerMonth
  }

  /** The change handler of every form control: the control named `name` now
      shows `text`; the diet selector stores the text itself, every other
      control stores `toNumber(text)` (JavaScript's `Number`, which the model
      takes as a parameter). A name that is none of the five form fields only
      adds a key the estimator never reads, so the five fields stay as they were. */
  function HandleChange(prev: Inputs, name: string, text: string, toNumber: string -> Option<real>): (next: Inputs)
    ensures forall c: Category :: FieldName(c) != name ==> SameField(prev, next, c)
    ensures name == FieldName(Diet) ==> next.dietType == text
    ensures name == FieldName(Car) ==> next.carKmPerYear == toNumber(text)
    ensures name == FieldName(Air) ==> next.airHoursPerYear == toNumber(text)
    ensures name == FieldName(Electricity) ==> next.monthlyElectricityKWh == toNumber(text)
    ensures name == FieldName(Waste) ==> next.wasteKgPerMonth == toNumber(text)
  {
    if name == "dietType" then prev.(dietType := text)
    else if name == "carKmPerYear" then prev.(carKmPerYear := toNumber(text))
    else if name == "airHoursPerYear" then prev.(airHoursPerYear := toNumber(text))
    else if name == "monthlyElectricityKWh" then prev.(monthlyElectricityKWh := toNumber(text))
    else if name == "wasteKgPerMonth" then prev.(wasteKgPerMonth := toNumber(text))
    else prev
  }

  // ---------------------------------------------------------------------------
  // Emission factors
  // ---------------------------------------------------------------------------

  const CarFactor: real := 0.0002          // t CO2e per km driven per year
  const AirFactor: real := 0.09            // t CO2e per flight hour per year
  const ElectricityFactor: real := 0.0007  // t CO2e per kWh, applied to monthly use
  const WasteFactor: real := 0.0012        // t CO2e per kg, applied to monthly waste
  const MonthsPerYear: real := 12.0

  /** Annual footprint of each diet the selector offers. */
  const DietFactors: map<string, real> := map[
    "Vegan" := 1.5,
    "Vegetarian" := 2.0,
    "Light Meat" := 3.0,
    "Medium Meat" := 4.0,
    "Heavy Meat" := 5.0]

  /** The selector's options, in the table's key order. */
  const DietLabels: seq<string> := ["Vegan", "Vegetarian", "Light Meat", "Medium Meat", "Heavy Meat"]

  /** The diet category's value: the table entry, or 0 for a label the table lacks. */
  function DietValue(name: string): (v: real)
    ensures name !in DietFactors ==> v == 0.0
    ensures name in DietFactors ==> 1.5 <= v <= 5.0
  {
    if name in DietFactors then DietFactors[name] else 0.0
  }

  /** JavaScript's `x || 0` on a number: `NaN` (and 0 itself) become 0. */
  function OrZero(x: Option<real>): real
  {
    x.OrElse(0.0)
  }

  // ---------------------------------------------------------------------------
  // The estimate
  // ---------------------------------------------------------------------------

  /** One slice of the pie chart. */
  datatype Slice = Slice(name: string, value: real)

  datatype Results = Results(
    car: real, air: real, electricity: real, diet: real, waste: real,
    total: real, breakdown: seq<Slice>)
  {
    /** The value this result holds for category `c`. */
    function Of(c: Category): real
    {
      match c
      case Car => car
      case Air => air
      case Electricity => electricity
      case Diet => diet
      case Waste => waste
    }
  }

  /** The chart label of each category. */
  function SliceName(c: Category): string
  {
    match c
    case Car => "Transportation (Car)"
    case Air => "Transportation (Air)"
    case Electricity => "Household Energy"
    case Diet => "Diet"
    case Waste => "Waste"
  }

  /** Sum of the values of a list of slices. */
  function SumValues(slices: seq<Slice>): real
  {
    if slices == [] then 0.0 else slices[0].value + SumValues(slices[1..])
  }

  /** The sum of five slices, spelled out. */
  lemma SumOfFive(s: seq<Slice>)
    requires |s| == 5
    ensures SumValues(s) == s[0].value + s[1].value + s[2].value + s[3].value + s[4].value
  {
    assert s[4..][0] == s[4] && s[4..][1..] == [];
    assert SumValues(s[4..]) == s[4].value;
    assert s[3..][0] == s[3] && s[3..][1..] == s[4..];
    assert SumValues(s[3..]) == s[3].value + SumValues(s[4..]);
    assert s[2..][0] == s[2] && s[2..][1..] == s[3..];
    assert SumValues(s[2..]) == s[2].value + SumValues(s[3..]);
    assert s[1..][0] == s[1] && s[1..][1..] == s[2..];
    assert SumValues(s[1..]) == s[1].value + SumValues(s[2..]);
  }

  /** The estimate recomputed on every change of the inputs. The breakdown
      lists the five categories in their fixed order, each with its own value,
      and its values add up to the total. */
  function Estimate(inputs: Inputs): (r: Results)
    ensures |r.breakdown| == |Categories|
    ensures forall i :: 0 <= i < |Categories| ==>
              r.breakdown[i] == Slice(SliceName(Categories[i]), r.Of(Categories[i]))
    ensures SumValues(r.breakdown) == r.total
  {
    var car := OrZero(inputs.carKmPerYear) * CarFactor;
    var air := OrZero(inputs.airHoursPerYear) * AirFactor;
    var electricity := OrZero(inputs.monthlyElectricityKWh) * MonthsPerYear * ElectricityFactor;
    var diet := DietValue(inputs.dietType);
    var waste := OrZero(inputs.wasteKgPerMonth) * MonthsPerYear * WasteFactor;
    var total := car + air + electricity + diet + waste;
    var breakdown := [
      Slice("Transportation (Car)", car),
      Slice("Transportation (Air)", air),
      Slice("Household Energy", electricity),
      Slice("Diet", diet),
      Slice("Waste", waste)];
    SumOfFive(breakdown);
    Results(car, air, electricity, diet, waste, total, breakdown)
  }

  /** The total is the sum of the five categories, whatever the inputs. */
  lemma TotalIsSumOfCategories(inputs: Inputs)
    ensures var r := Estimate(inputs);
            r.total == r.Of(Car) + r.Of(Air) + r.Of(Electricity) + r.Of(Diet) + r.Of(Waste)
  {
  }

  /** Each numeric category is linear in its own input: a falsy input (absent,
      `NaN` or 0) contributes exactly 0, any other input contributes input times
      factor, annualised by 12 for the monthly electricity and waste figures. */
  lemma CategoriesAreLinear(inputs: Inputs)
    ensures var r := Estimate(inputs);
            && (inputs.carKmPerYear in {None, Some(0.0)} ==> r.car == 0.0)
            && (inputs.airHoursPerYear in {None, Some(0.0)} ==> r.air == 0.0)
            && (inputs.monthlyElectricityKWh in {None, Some(0.0)} ==> r.electricity == 0.0)
            && (inputs.wasteKgPerMonth in {None, Some(0.0)} ==> r.waste == 0.0)
            && r.car == OrZero(inputs.carKmPerYear) * 0.0002
            && r.air == OrZero(inputs.airHoursPerYear) * 0.09
            && r.electricity == OrZero(inputs.monthlyElectricityKWh) * 12.0 * 0.0007
            && r.waste == OrZero(inputs.wasteKgPerMonth) * 12.0 * 0.0012
  {
  }

  /** The diet category is the table value of the five known labels and 0 for
      any other label; the table rises strictly along the selector's options. */
  lemma DietTable(inputs: Inputs)
    ensures var d := Estimate(inputs).diet;
            && (inputs.dietType == "Vegan" ==> d == 1.5)
            && (inputs.dietType == "Vegetarian" ==> d == 2.0)
            && (inputs.dietType == "Light Meat" ==> d == 3.0)
            && (inputs.dietType == "Medium Meat" ==> d == 4.0)
            && (inputs.dietType == "Heavy Meat" ==> d == 5.0)
            && (inputs.dietType !in DietLabels ==> d == 0.0)
    ensures forall i, j :: 0 <= i < j < |DietLabels| ==> DietValue(DietLabels[i]) < DietValue(DietLabels[j])
  {
  }

  /** A category's value depends on its own input only. */
  lemma {:induction false} CategoryDependsOnOwnField(a: Inputs, b: Inputs, c: Category)
    requires SameField(a, b, c)
    ensures Estimate(a).Of(c) == Estimate(b).Of(c)
  {
  }

  /** Editing one form field changes no other category of the estimate. */
  lemma HandleChangeIsolatesCategories(prev: Inputs, name: string, text: string, toNumber: string -> Option<real>)
    ensures var before := Estimate(prev);
            var after := Estimate(HandleChange(prev, name, text, toNumber));
            forall c: Category :: FieldName(c) != name ==> after.Of(c) == before.Of(c)
  {
    var next := HandleChange(prev, name, text, toNumber);
    forall c: Category | FieldName(c) != name
      ensures Estimate(next).Of(c) == Estimate(prev).Of(c)
    {
      CategoryDependsOnOwnField(prev, next, c);
    }
  }

  /** The (coerced) numeric input of a non-diet category. */
  function Amount(inputs: Inputs, c: Category): real
    requires c != Diet
  {
    match c
    case Car => OrZero(inputs.carKmPerYear)
    case Air => OrZero(inputs.airHoursPerYear)
    case Electricity => OrZero(inputs.monthlyElectricityKWh)
    case Waste => OrZero(inputs.wasteKgPerMonth)
  }

  /** Raising one numeric input, all else equal, strictly raises that
      category and the total and leaves every other category as it was. */
  lemma RaisingOneInputRaisesTotal(a: Inputs, b: Inputs, c: Category)
    requires c != Diet
    requires forall d: Category :: d != c ==> SameField(a, b, d)
    requires Amount(a, c) < Amount(b, c)
    ensures Estimate(a).Of(c) < Estimate(b).Of(c)
    ensures Estimate(a).total < Estimate(b).total
    ensures forall d: Category :: d != c ==> Estimate(a).Of(d) == Estimate(b).Of(d)
  {
    forall d: Category | d != c
      ensures Estimate(a).Of(d) == Estimate(b).Of(d)
    {
      CategoryDependsOnOwnField(a, b, d);
    }
    TotalIsSumOfCategories(a);
    TotalIsSumOfCategories(b);
  }

  /** With no negative numeric input, no category and no total is negative,
      and the total is at least the diet's share. */
  lemma NonNegativeInputsGiveNonNegativeResults(inputs: Inputs)
    requires OrZero(inputs.carKmPerYear) >= 0.0 && OrZero(inputs.airHoursPerYear) >= 0.0
    requires OrZero(inputs.monthlyElectricityKWh) >= 0.0 && OrZero(inputs.wasteKgPerMonth) >= 0.0
    ensures var r := Estimate(inputs);
            forall i :: 0 <= i < |r.breakdown| ==> r.breakdown[i].value >= 0.0
    ensures Estimate(inputs).diet <= Estimate(inputs).total
  {
    var r := Estimate(inputs);
    assert forall c: Category :: r.Of(c) >= 0.0;
  }

  // ---------------------------------------------------------------------------
  // Rating and comparison with the global average
  // ---------------------------------------------------------------------------

  datatype Rating = Low | Moderate | High | VeryHigh

  /** The rating breakpoints: totals up to 2 are Low, up to 5 Moderate, up to 8 High. */
  const RatingBounds: seq<real> := [2.0, 5.0, 8.0]

  function RatingLabel(b: Rating): string
  {
    match b
    case Low => "Low"
    case Moderate => "Moderate"
    case High => "High"
    case VeryHigh => "Very High"
  }

  /** Position of a rating from Low (0) to Very High (3). */
  function RatingIndex(b: Rating): nat
  {
    match b
    case Low => 0
    case Moderate => 1
    case High => 2
    case VeryHigh => 3
  }

  /** The rating of a total: every total gets exactly one band, and a total
      equal to a breakpoint stays in the lower band. */
  function RatingFor(total: real): (b: Rating)
    ensures b == Low <==> total <= 2.0
    ensures b == Moderate <==> 2.0 < total <= 5.0
    ensures b == High <==> 5.0 < total <= 8.0
    ensures b == VeryHigh <==> 8.0 < total
  {
    if total <= 2.0 then Low
    else if total <= 5.0 then Moderate
    else if total <= 8.0 then High
    else VeryHigh
  }

  /** The rating's position is the number of breakpoints the total exceeds. */
  lemma RatingCountsBreakpoints(total: real)
    ensures RatingIndex(RatingFor(total)) == Bands.Exceeded(RatingBounds, total)
  {
    var b := RatingBounds;
    assert b[1..] == [5.0, 8.0] && b[1..][1..] == [8.0] && b[1..][1..][1..] == [];
    assert Bands.Exceeded(b[1..][1..][1..], total) == 0;
    assert Bands.Exceeded(b[1..][1..], total) == if total > 8.0 then 1 else 0;
    assert Bands.Exceeded(b[1..], total) == (if total > 5.0 then 1 else 0) + (if total > 8.0 then 1 else 0);
  }

  /** A larger total never gets a lower rating. */
  lemma RatingMonotone(t1: real, t2: real)
    requires t1 <= t2
    ensures RatingIndex(RatingFor(t1)) <= RatingIndex(RatingFor(t2))
  {
    RatingCountsBreakpoints(t1);
    RatingCountsBreakpoints(t2);
    Bands.ExceededMonotone(RatingBounds, t1, t2);
  }

  /** The impact colours from mildest to worst rating. */
  const ImpactColors: seq<string> := ["text-emerald-400", "text-yellow-400", "text-orange-400", "text-red-400"]

  /** Text colour chosen from the rating's label: each rating's label selects
      the colour at the rating's position, and any other text the last one. */
  function RatingColor(text: string): (c: string)
    ensures forall b: Rating :: text == RatingLabel(b) ==> c == ImpactColors[RatingIndex(b)]
    ensures text !in {RatingLabel(Low), RatingLabel(Moderate), RatingLabel(High)} ==> c == ImpactColors[3]
  {
    if text == "Low" then "text-emerald-400"
    else if text == "Moderate" then "text-yellow-400"
    else if text == "High" then "text-orange-400"
    else "text-red-400"
  }

  /** Text colour of the results header, chosen from the total directly. It
      is the colour the rating's label selects. */
  function HeaderColor(total: real): (c: string)
    ensures c == ImpactColors[RatingIndex(RatingFor(total))]
    ensures c == RatingColor(RatingLabel(RatingFor(total)))
  {
    if total <= 2.0 then "text-emerald-400"
    else if total <= 5.0 then "text-yellow-400"
    else if total <= 8.0 then "text-orange-400"
    else "text-red-400"
  }

  /** The header's ladder on the total and the ladder on the rating label
      select the same colour, and the four colours tell the bands apart. */
  lemma HeaderColorMatchesRating(total: real)
    ensures HeaderColor(total) == RatingColor(RatingLabel(RatingFor(total)))
    ensures forall a: Rating, b: Rating :: RatingColor(RatingLabel(a)) == RatingColor(RatingLabel(b)) ==> a == b
  {
  }

  const GlobalAverage: real := 4.7

  /** How the total compares with the global average, as the results panel
      words it: "below average" by |delta| or "above average" by delta, where
      delta = total - 4.7. */
  datatype Comparison = BelowAverage(margin: real) | AboveAverage(margin: real)

  function CompareToAverage(total: real): (cmp: Comparison)
    ensures cmp.BelowAverage? <==> total <= GlobalAverage
    ensures cmp.margin >= 0.0
    ensures cmp.BelowAverage? ==> total == GlobalAverage - cmp.margin
    ensures cmp.AboveAverage? ==> total == GlobalAverage + cmp.margin && cmp.margin > 0.0
  {
    var delta := total - GlobalAverage;
    if delta <= 0.0 then BelowAverage(if delta < 0.0 then -delta else delta)
    else AboveAverage(delta)
  }

  // ---------------------------------------------------------------------------
  // Recommendations
  // ---------------------------------------------------------------------------

  /** The value above which a category triggers its advice. */
  function Threshold(c: Category): real
  {
    match c
    case Car => 1.0
    case Air => 1.0
    case Electricity => 1.0
    case Diet => 3.0
    case Waste => 0.5
  }

  /** Category `c` is strictly above its threshold. */
  predicate Exceeds(r: Results, c: Category)
  {
    r.Of(c) > Threshold(c)
  }

  /** One entry of the advice list: the advice of a category, or the
      encouragement shown when no category needs advice. */
  datatype Tip = Advise(category: Category) | KeepItUp

  /** The message the list shows for a tip. */
  function TipText(t: Tip): string
  {
    match t
    case Advise(Car) => "Consider carpooling, public transit, or switching to an EV or hybrid."
    case Advise(Air) => "Bundle trips, choose trains for regional travel, and offset unavoidable flights."
    case Advise(Electricity) => "Improve home efficiency: LED lighting, efficient AC, and solar where possible."
    case Advise(Diet) => "Shift toward plant-forward meals several days a week."
    case Advise(Waste) => "Increase recycling/composting and avoid single-use items."
    case KeepItUp => "Great job! Maintain habits and inspire others."
  }

  /** Different tips show different messages (the six texts differ even in
      length), so facts about the tips carry over to the strings shown. */
  lemma TipTextInjective(a: Tip, b: Tip)
    requires TipText(a) == TipText(b)
    ensures a == b
  {
    TipTextLength(a);
    TipTextLength(b);
    TipLengthInjective(a, b);
  }

  /** The number of characters in each tip's message. These counts serve
      only to tell the six messages apart: comparing lengths is much cheaper
      for the verifier than comparing the strings themselves. */
  function TipLength(t: Tip): nat
  {
    match t
    case Advise(Car) => 69
    case Advise(Air) => 80
    case Advise(Electricity) => 78
    case Advise(Diet) => 53
    case Advise(Waste) => 57
    case KeepItUp => 46
  }

  /** Each tip's message has its own length. */
  lemma TipTextLength(t: Tip)
    ensures |TipText(t)| == TipLength(t)
  {
  }

  /** No two tips have messages of the same length. */
  lemma TipLengthInjective(a: Tip, b: Tip)
    requires TipLength(a) == TipLength(b)
    ensures a == b
  {
  }

  /** Position of a category in the fixed order. */
  function CategoryRank(c: Category): nat
  {
    match c
    case Car => 0
    case Air => 1
    case Electricity => 2
    case Diet => 3
    case Waste => 4
  }

  /** Position of a tip in the fixed order; the encouragement comes last. */
  function TipRank(t: Tip): nat
  {
    match t
    case Advise(c) => CategoryRank(c)
    case KeepItUp => |Categories|
  }

  /** The advice list, as the five explicit tests build it. It is never empty,
      and the encouragement only ever appears alone. */
  function Recommendations(r: Results): (recs: seq<Tip>)
    ensures 1 <= |recs| <= |Categories|
    ensures KeepItUp in recs ==> recs == [KeepItUp]
  {
    var recs :=
      (if r.car > 1.0 then [Advise(Car)] else [])
      + ((if r.air > 1.0 then [Advise(Air)] else [])
      + ((if r.electricity > 1.0 then [Advise(Electricity)] else [])
      + ((if r.diet > 3.0 then [Advise(Diet)] else [])
      + (if r.waste > 0.5 then [Advise(Waste)] else []))));
    if |recs| == 0 then [KeepItUp] else recs
  }

  /** Reference reading of the advice rules: walk the category table in order
      and keep the advice of each category above its threshold. */
  function Triggered(r: Results, cs: seq<Category>): seq<Tip>
  {
    if cs == [] then []
    else (if Exceeds(r, cs[0]) then [Advise(cs[0])] else []) + Triggered(r, cs[1..])
  }

  /** The table walk keeps at most one tip per category, only advice, and the
      advice of exactly the listed categories above their thresholds. */
  lemma {:induction false} TriggeredContents(r: Results, cs: seq<Category>)
    ensures |Triggered(r, cs)| <= |cs|
    ensures KeepItUp !in Triggered(r, cs)
    ensures forall c: Category :: Advise(c) in Triggered(r, cs) <==> c in cs && Exceeds(r, c)
  {
    if cs != [] {
      TriggeredContents(r, cs[1..]);
      forall c: Category
        ensures Advise(c) in Triggered(r, cs) <==> c in cs && Exceeds(r, c)
      {
        assert c in cs <==> c == cs[0] || c in cs[1..];
      }
    }
  }

  /** Walking a table in increasing rank yields tips in increasing rank. */
  lemma {:induction false} TriggeredOrdered(r: Results, cs: seq<Category>)
    requires forall i, j :: 0 <= i < j < |cs| ==> CategoryRank(cs[i]) < CategoryRank(cs[j])
    ensures var t := Triggered(r, cs);
            forall i, j :: 0 <= i < j < |t| ==> TipRank(t[i]) < TipRank(t[j])
  {
    if cs != [] {
      var rest := Triggered(r, cs[1..]);
      TriggeredOrdered(r, cs[1..]);
      TriggeredContents(r, cs[1..]);
      forall x | x in rest
        ensures CategoryRank(cs[0]) < TipRank(x)
      {
        var c := x.category;
        assert c in cs[1..];
        var k :| 0 <= k < |cs[1..]| && cs[1..][k] == c;
        assert cs[k + 1] == c;
      }
    }
  }

  /** The five explicit tests compute the table-driven list, with the
      encouragement standing in for an empty one. */
  lemma RecommendationsFollowRuleTable(r: Results)
    ensures var t := Triggered(r, Categories);
            Recommendations(r) == if t == [] then [KeepItUp] else t
  {
    var car := if r.car > 1.0 then [Advise(Car)] else [];
    var air := if r.air > 1.0 then [Advise(Air)] else [];
    var electricity := if r.electricity > 1.0 then [Advise(Electricity)] else [];
    var diet := if r.diet > 3.0 then [Advise(Diet)] else [];
    var waste := if r.waste > 0.5 then [Advise(Waste)] else [];
    assert [Waste][1..] == [];
    assert Triggered(r, [Waste]) == waste;
    assert [Diet, Waste][1..] == [Waste];
    assert Triggered(r, [Diet, Waste]) == diet + waste;
    assert [Electricity, Diet, Waste][1..] == [Diet, Waste];
    assert Triggered(r, [Electricity, Diet, Waste]) == electricity + (diet + waste);
    assert [Air, Electricity, Diet, Waste][1..] == [Electricity, Diet, Waste];
    assert Triggered(r, [Air, Electricity, Diet, Waste]) == air + (electricity + (diet + waste));
    assert Categories[1..] == [Air, Electricity, Diet, Waste];
    assert Triggered(r, Categories) == car + (air + (electricity + (diet + waste)));
  }

  /** Every category is in the table. */
  lemma CategoriesComplete(c: Category)
    ensures c in Categories
  {
    match c
    case Car => assert Categories[0] == c;
    case Air => assert Categories[1] == c;
    case Electricity => assert Categories[2] == c;
    case Diet => assert Categories[3] == c;
    case Waste => assert Categories[4] == c;
  }

  /** The advice of a category appears exactly when that category is strictly
      above its threshold. */
  lemma AdviceExactlyWhenAboveThreshold(r: Results, c: Category)
    ensures Advise(c) in Recommendations(r) <==> Exceeds(r, c)
  {
    RecommendationsFollowRuleTable(r);
    TriggeredContents(r, Categories);
    CategoriesComplete(c);
  }

  /** The encouragement appears exactly when no category is above its threshold. */
  lemma EncouragementExactlyWhenNothingExceeds(r: Results)
    ensures KeepItUp in Recommendations(r) <==> forall c: Category :: !Exceeds(r, c)
  {
    var t := Triggered(r, Categories);
    RecommendationsFollowRuleTable(r);
    TriggeredContents(r, Categories);
    if t == [] {
      forall c: Category ensures !Exceeds(r, c) {
        CategoriesComplete(c);
      }
    } else {
      assert t[0] in t;
      assert Advise(t[0].category) in t;
    }
  }

  /** Tips appear in the fixed order car, air, electricity, diet, waste, each
      at most once. */
  lemma RecommendationsOrdered(r: Results)
    ensures var recs := Recommendations(r);
            forall i, j :: 0 <= i < j < |recs| ==> TipRank(recs[i]) < TipRank(recs[j])
  {
    RecommendationsFollowRuleTable(r);
    TriggeredOrdered(r, Categories);
  }

  /** The messages shown are pairwise distinct: no advice is shown twice. */
  lemma RecommendationTextsDistinct(r: Results)
    ensures var recs := Recommendations(r);
            forall i, j :: 0 <= i < j < |recs| ==> TipText(recs[i]) != TipText(recs[j])
  {
    var recs := Recommendations(r);
    RecommendationsOrdered(r);
    forall i, j | 0 <= i < j < |recs| ensures TipText(recs[i]) != TipText(recs[j]) {
      if TipText(recs[i]) == TipText(recs[j]) {
        TipTextInjective(recs[i], recs[j]);
      }
    }
  }

  /** The diet advice appears exactly for Medium Meat and Heavy Meat; Light
      Meat sits exactly at the threshold 3.0 and so does not trigger it. */
  lemma DietAdviceForMeatHeavyDiets(inputs: Inputs)
    ensures Advise(Diet) in Recommendations(Estimate(inputs)) <==>
            inputs.dietType == "Medium Meat" || inputs.dietType == "Heavy Meat"
  {
  }

  // ---------------------------------------------------------------------------
  // Worked figures
  // ---------------------------------------------------------------------------

  /** The form's starting values give 8.192 t in all, a Very High rating, and
      the car, electricity and diet advice in that order. */
  lemma DefaultEstimate()
    ensures var r := Estimate(DefaultInputs);
            && r.car == 1.6 && r.air == 0.9 && r.electricity == 1.26
            && r.diet == 4.0 && r.waste == 0.432 && r.total == 8.192
            && RatingFor(r.total) == VeryHigh
            && CompareToAverage(r.total) == AboveAverage(3.492)
            && Recommendations(r) == [Advise(Car), Advise(Electricity), Advise(Diet)]
  {
  }

  /** A vegan with no car, flights, electricity or waste emits the diet's 1.5 t,
      which is rated Low and draws only the fallback message. */
  lemma VeganOnlyEstimate()
    ensures var r := Estimate(Inputs(Some(0.0), Some(0.0), Some(0.0), "Vegan", Some(0.0)));
            && r.total == 1.5
            && RatingFor(r.total) == Low
            && Recommendations(r) == [KeepItUp]
  {
  }
}

=== FILE: india_emissions_map.dfy ===
/** The city-emissions panel: a fixed table of Indian cities, the colour and
    radius of each city's marker, its per-capita figure, and the summary
    statistics (city count, combined emissions, average per-capita figure and
    the ten largest emitters). */
module IndiaEmissionsMap {
  import opened Wrappers
  import Bands

  // ---------------------------------------------------------------------------
  // The table
  // ---------------------------------------------------------------------------

  /** One city: position, annual emissions in Mt CO2, population in millions
      and the main emission sources. */
  datatype City = City(
    city: string, state: string, lat: real, lon: real,
    emissionsMt: real, populationM: real, sources: seq<string>)

  const North: seq<City> := [
    City("Delhi", "Delhi", 28.6139, 77.2090, 65.0, 19.0, ["Transport", "Industry", "Power"]),
    City("Chandigarh", "Chandigarh", 30.7333, 76.7794, 3.0, 1.1, ["Transport", "Residential"]),
    City("Lucknow", "Uttar Pradesh", 26.8467, 80.9462, 12.0, 3.6, ["Transport", "Residential"]),
    City("Jaipur", "Rajasthan", 26.9124, 75.7873, 10.0, 3.1, ["Transport", "Industry"]),
    City("Amritsar", "Punjab", 31.6340, 74.8723, 5.0, 1.4, ["Transport", "Residential"])
  ]

  const South: seq<City> := [
    City("Bengaluru", "Karnataka", 12.9716, 77.5946, 25.0, 12.3, ["Transport", "IT/Commercial", "Residential"]),
    City("Chennai", "Tamil Nadu", 13.0827, 80.2707, 22.0, 10.9, ["Transport", "Industry"]),
    City("Hyderabad", "Telangana", 17.3850, 78.4867, 20.0, 10.5, ["Transport", "Residential"]),
    City("Kochi", "Kerala", 9.9312, 76.2673, 4.0, 0.7, ["Transport", "Port"]),
    City("Coimbatore", "Tamil Nadu", 11.0168, 76.9558, 6.0, 2.8, ["Industry", "Transport"]),
    City("Visakhapatnam", "Andhra Pradesh", 17.6868, 83.2185, 7.0, 2.4, ["Port", "Industry"])
  ]

  const West: seq<City> := [
    City("Mumbai", "Maharashtra", 19.0760, 72.8777, 55.0, 20.0, ["Transport", "Industry", "Power"]),
    City("Pune", "Maharashtra", 18.5204, 73.8567, 12.0, 6.6, ["Transport", "IT/Commercial"]),
    City("Ahmedabad", "Gujarat", 23.0225, 72.5714, 18.0, 8.2, ["Industry", "Transport"]),
    City("Surat", "Gujarat", 21.1702, 72.8311, 16.0, 7.1, ["Industry", "Textiles"]),
    City("Nagpur", "Maharashtra", 21.1458, 79.0882, 7.0, 2.9, ["Transport", "Residential"])
  ]

  const East: seq<City> := [
    City("Kolkata", "West Bengal", 22.5726, 88.3639, 28.0, 14.8, ["Transport", "Industry", "Power"]),
    City("Patna", "Bihar", 25.5941, 85.1376, 6.0, 2.6, ["Transport", "Residential"]),
    City("Bhubaneswar", "Odisha", 20.2961, 85.8245, 5.0, 1.1, ["Industry", "Transport"]),
    City("Ranchi", "Jharkhand", 23.3441, 85.3096, 4.0, 1.5, ["Transport", "Residential"])
  ]

  const Northeast: seq<City> := [
    City("Guwahati", "Assam", 26.1445, 91.7362, 4.0, 1.1, ["Transport", "Residential"]),
    City("Shillong", "Meghalaya", 25.5788, 91.8933, 1.5, 0.15, ["Residential", "Transport"])
  ]

  const Central: seq<City> := [
    City("Indore", "Madhya Pradesh", 22.7196, 75.8577, 7.0, 3.0, ["Transport", "Commercial"]),
    City("Bhopal", "Madhya Pradesh", 23.2599, 77.4126, 6.0, 2.8, ["Residential", "Transport"]),
    City("Raipur", "Chhattisgarh", 21.2514, 81.6296, 6.0, 1.1, ["Industry", "Power"])
  ]

  /** The whole table, region by region. */
  const CityData: seq<City> := North + South + West + East + Northeast + Central

  // ---------------------------------------------------------------------------
  // Markers
  // ---------------------------------------------------------------------------

  /** Marker colours from lowest to highest emissions. */
  const Palette: seq<string> := ["#34d399", "#facc15", "#f59e0b", "#fb923c", "#ef4444"]

  /** Upper bounds (inclusive, Mt/yr) of the first four colours. */
  const EmissionBounds: seq<real> := [5.0, 10.0, 20.0, 40.0]

  /** The marker colour of a city emitting `mt` Mt/yr: exactly one of five
      colours, each band closed at its upper bound. */
  function ColorForEmissions(mt: real): (color: string)
    ensures color in Palette
    ensures color == Palette[0] <==> mt <= 5.0
    ensures color == Palette[1] <==> 5.0 < mt <= 10.0
    ensures color == Palette[2] <==> 10.0 < mt <= 20.0
    ensures color == Palette[3] <==> 20.0 < mt <= 40.0
    ensures color == Palette[4] <==> 40.0 < mt
  {
    if mt <= 5.0 then "#34d399"
    else if mt <= 10.0 then "#facc15"
    else if mt <= 20.0 then "#f59e0b"
    else if mt <= 40.0 then "#fb923c"
    else "#ef4444"
  }

  /** The colour is the palette entry at the number of bounds exceeded. */
  lemma ColorCountsBounds(mt: real)
    ensures ColorForEmissions(mt) == Palette[Bands.Exceeded(EmissionBounds, mt)]
  {
    var b := EmissionBounds;
    assert b[1..] == [10.0, 20.0, 40.0];
    assert b[1..][1..] == [20.0, 40.0];
    assert b[1..][1..][1..] == [40.0];
    assert b[1..][1..][1..][1..] == [];
    assert Bands.Exceeded(b[1..][1..][1..][1..], mt) == 0;
    assert Bands.Exceeded(b[1..][1..][1..], mt) == if mt > 40.0 then 1 else 0;
    assert Bands.Exceeded(b[1..][1..], mt) == (if mt > 20.0 then 1 else 0) + (if mt > 40.0 then 1 else 0);
    assert Bands.Exceeded(b[1..], mt) ==
      (if mt > 10.0 then 1 else 0) + (if mt > 20.0 then 1 else 0) + (if mt > 40.0 then 1 else 0);
  }

  /** The position in the palette of the colour of a city emitting `mt`. */
  function ColorIndex(mt: real): (i: nat)
    ensures i < |Palette| && Palette[i] == ColorForEmissions(mt)
  {
    ColorCountsBounds(mt);
    Bands.Exceeded(EmissionBounds, mt)
  }

  /** A larger emitter never gets a colour earlier in the palette. */
  lemma ColorMonotone(a: real, b: real)
    requires a <= b
    ensures ColorIndex(a) <= ColorIndex(b)
  {
    Bands.ExceededMonotone(EmissionBounds, a, b);
  }

  function Min(a: real, b: real): real { if a <= b then a else b }

  function Max(a: real, b: real): real { if a >= b then a else b }

  const MinRadius: real := 6.0
  const MaxRadius: real := 26.0

  /** The marker radius: the emissions figure clamped into [6, 26]. */
  function MarkerRadius(mt: real): (r: real)
    ensures MinRadius <= r <= MaxRadius
    ensures MinRadius <= mt <= MaxRadius ==> r == mt
    ensures mt < MinRadius ==> r == MinRadius
    ensures MaxRadius < mt ==> r == MaxRadius
  {
    Max(MinRadius, Min(MaxRadius, mt))
  }

  /** The popup's per-capita figure, t/yr per person. The million factors of
      both units cancel; a city without population would give no finite
      value, which is absent here. */
  function PerCapita(c: City): (p: Option<real>)
    ensures p.Some? <==> c.populationM != 0.0
    ensures p.Some? ==> p.value == c.emissionsMt / c.populationM
    ensures p.Some? ==> p.value * c.populationM == c.emissionsMt
  {
    if c.populationM == 0.0 then None
    else Some(c.emissionsMt * 1000000.0 / (c.populationM * 1000000.0))
  }

  // ---------------------------------------------------------------------------
  // Statistics
  // ---------------------------------------------------------------------------

  /** Sum of the emissions of a list of cities. */
  function TotalEmissions(cs: seq<City>): real
  {
    if cs == [] then 0.0 else cs[0].emissionsMt + TotalEmissions(cs[1..])
  }

  /** Sum of the populations of a list of cities. */
  function TotalPopulation(cs: seq<City>): real
  {
    if cs == [] then 0.0 else cs[0].populationM + TotalPopulation(cs[1..])
  }

  /** With no negative entry, the emission sum is non-negative and at least
      each entry. */
  lemma {:induction false} TotalEmissionsBoundsEntries(cs: seq<City>)
    requires forall i :: 0 <= i < |cs| ==> cs[i].emissionsMt >= 0.0
    ensures TotalEmissions(cs) >= 0.0
    ensures forall i :: 0 <= i < |cs| ==> cs[i].emissionsMt <= TotalEmissions(cs)
  {
    if cs != [] {
      TotalEmissionsBoundsEntries(cs[1..]);
    }
  }

  /** A non-empty list of positive populations has a positive sum, at least
      each entry. */
  lemma {:induction false} TotalPopulationBoundsEntries(cs: seq<City>)
    requires forall i :: 0 <= i < |cs| ==> cs[i].populationM > 0.0
    ensures cs != [] ==> TotalPopulation(cs) > 0.0
    ensures forall i :: 0 <= i < |cs| ==> cs[i].populationM <= TotalPopulation(cs)
  {
    if cs != [] {
      TotalPopulationBoundsEntries(cs[1..]);
    }
  }

  /** Both sums split over a concatenation. */
  lemma {:induction false} TotalsOfConcat(a: seq<City>, b: seq<City>)
    ensures TotalEmissions(a + b) == TotalEmissions(a) + TotalEmissions(b)
    ensures TotalPopulation(a + b) == TotalPopulation(a) + TotalPopulation(b)
  {
    if a == [] {
      assert a + b == b;
    } else {
      assert (a + b)[1..] == a[1..] + b;
      TotalsOfConcat(a[1..], b);
    }
  }

  /** Emissions are non-increasing along the list. */
  predicate SortedByEmissions(cs: seq<City>)
  {
    forall i, j :: 0 <= i < j < |cs| ==> cs[j].emissionsMt <= cs[i].emissionsMt
  }

  /** A sorted list stays sorted when an entry at least as large as all of
      its entries is put in front. */
  lemma {:induction false} SortedCons(h: City, t: seq<City>)
    requires SortedByEmissions(t)
    requires forall y :: y in t ==> y.emissionsMt <= h.emissionsMt
    ensures SortedByEmissions([h] + t)
  {
    var s := [h] + t;
    forall i, j | 0 <= i < j < |s| ensures s[j].emissionsMt <= s[i].emissionsMt {
      assert s[j] == t[j - 1];
      if i > 0 {
        assert s[i] == t[i - 1];
      } else {
        assert t[j - 1] in t;
      }
    }
  }

  /** Insert `c` into a list sorted by decreasing emissions, ahead of the
      first entry it is at least as large as, so that equal entries keep the
      order in which they were met. Nothing is lost or duplicated. */
  function Insert(c: City, sorted: seq<City>): (r: seq<City>)
    ensures multiset(r) == multiset(sorted) + multiset{c}
  {
    if sorted == [] || c.emissionsMt >= sorted[0].emissionsMt then [c] + sorted
    else
      assert sorted == [sorted[0]] + sorted[1..];
      [sorted[0]] + Insert(c, sorted[1..])
  }

  /** Inserting into a sorted list keeps it sorted. */
  lemma {:induction false} InsertKeepsSorted(c: City, sorted: seq<City>)
    requires SortedByEmissions(sorted)
    ensures SortedByEmissions(Insert(c, sorted))
  {
    if sorted == [] || c.emissionsMt >= sorted[0].emissionsMt {
      SortedCons(c, sorted);
    } else {
      var rest := Insert(c, sorted[1..]);
      assert SortedByEmissions(sorted[1..]);
      InsertKeepsSorted(c, sorted[1..]);
      forall y | y in rest ensures y.emissionsMt <= sorted[0].emissionsMt {
        assert y in multiset(rest);
        if y != c {
          assert y in multiset(sorted[1..]);
          var k :| 0 <= k < |sorted[1..]| && sorted[1..][k] == y;
          assert sorted[k + 1] == y;
        }
      }
      SortedCons(sorted[0], rest);
    }
  }

  /** A stable sort by decreasing emissions, as the summary's comparator
      `b.emissionsMt - a.emissionsMt` orders a copy of the table: insertion
      sort from the back, each city placed ahead of the equal ones after it. */
  function SortByEmissions(cs: seq<City>): (r: seq<City>)
    ensures multiset(r) == multiset(cs)
    ensures SortedByEmissions(r)
  {
    if cs == [] then []
    else
      var rest := SortByEmissions(cs[1..]);
      assert cs == [cs[0]] + cs[1..];
      InsertKeepsSorted(cs[0], rest);
      Insert(cs[0], rest)
  }

  /** Cutting a sorted list at `k`: the two parts together hold the list's
      entries, both are sorted, and nothing after the cut exceeds anything
      before it. */
  lemma {:induction false} SplitSorted(s: seq<City>, k: nat)
    requires SortedByEmissions(s)
    requires k <= |s|
    ensures multiset(s) == multiset(s[..k]) + multiset(s[k..])
    ensures SortedByEmissions(s[..k])
    ensures forall c, t :: c in s[k..] && t in s[..k] ==> c.emissionsMt <= t.emissionsMt
  {
    assert s == s[..k] + s[k..];
    forall c, t | c in s[k..] && t in s[..k] ensures c.emissionsMt <= t.emissionsMt {
      var j :| 0 <= j < |s[k..]| && s[k..][j] == c;
      var i :| 0 <= i < |s[..k]| && s[..k][i] == t;
      assert s[k + j] == c && s[i] == t;
    }
  }

  /** The first `n` cities of the sorted copy. The result has min(n, |cs|)
      entries, is sorted by decreasing emissions, takes every entry from the
      list without duplication, and every city left out emits no more than
      any city kept. */
  function TopEmitters(cs: seq<City>, n: nat): (top: seq<City>)
    ensures |top| == if n < |cs| then n else |cs|
    ensures SortedByEmissions(top)
    ensures multiset(top) <= multiset(cs)
    ensures forall c, t :: c in multiset(cs) - multiset(top) && t in top ==> c.emissionsMt <= t.emissionsMt
  {
    var s := SortByEmissions(cs);
    var k := if n < |cs| then n else |cs|;
    assert |s| == |cs| by {
      assert |multiset(s)| == |multiset(cs)|;
    }
    SplitSorted(s, k);
    s[..k]
  }

  /** The average as the summary writes it, via tonnes and persons, is
      combined emissions per person per city. */
  lemma MillionsCancel(combined: real, population: real, n: real)
    requires population != 0.0 && n != 0.0
    ensures combined / (population * 1000000.0) * 1000000.0 / n == combined / population / n
  {
    var perPerson := combined / (population * 1000000.0);
    assert perPerson * (population * 1000000.0) == combined;
    assert (perPerson * 1000000.0) * population == combined;
    assert perPerson * 1000000.0 == combined / population;
  }

  /** Dividing by the population and the count, then multiplying back,
      returns the combined figure. */
  lemma AverageTimesCounts(combined: real, population: real, n: real)
    requires population != 0.0 && n != 0.0
    ensures combined / population / n * population * n == combined
  {
    var perPerson := combined / population;
    assert perPerson * population == combined;
    assert (perPerson / n) * n == perPerson;
    calc {
      perPerson / n * population * n;
      (perPerson / n) * n * population;
      perPerson * population;
    }
  }

  /** What the summary panel shows. `avgPerCapita` is absent where the
      division would give no finite value (no population at all). */
  datatype Stats = Stats(totalCities: nat, combined: real, avgPerCapita: Option<real>, top10: seq<City>)

  /** The average per-capita figure as the summary writes it, via tonnes and
      persons: the million factors cancel, leaving combined emissions per
      person per city. Absent where the division has no finite value (no
      population at all). */
  function AveragePerCapita(cs: seq<City>): (avg: Option<real>)
    ensures avg.Some? <==> TotalPopulation(cs) != 0.0
    ensures avg.Some? ==> cs != [] && avg.value == TotalEmissions(cs) / TotalPopulation(cs) / (|cs| as real)
    ensures avg.Some? ==> avg.value * TotalPopulation(cs) * (|cs| as real) == TotalEmissions(cs)
  {
    var combined := TotalEmissions(cs);
    var population := TotalPopulation(cs);
    if population == 0.0 then None
    else
      assert |cs| != 0;
      MillionsCancel(combined, population, |cs| as real);
      AverageTimesCounts(combined, population, |cs| as real);
      Some(combined / (population * 1000000.0) * 1000000.0 / (|cs| as real))
  }

  /** The summary statistics of a list of cities: the count, the combined
      emissions, the average per-capita figure, and at most ten cities,
      sorted by decreasing emissions, drawn from the list. */
  function ComputeStats(cs: seq<City>): (st: Stats)
    ensures st.totalCities == |cs|
    ensures st.combined == TotalEmissions(cs)
    ensures st.avgPerCapita == AveragePerCapita(cs)
    ensures |st.top10| == if |cs| < 10 then |cs| else 10
    ensures SortedByEmissions(st.top10) && multiset(st.top10) <= multiset(cs)
    ensures forall c, t :: c in multiset(cs) - multiset(st.top10) && t in st.top10 ==> c.emissionsMt <= t.emissionsMt
  {
    Stats(|cs|, TotalEmissions(cs), AveragePerCapita(cs), TopEmitters(cs, 10))
  }

  // ---------------------------------------------------------------------------
  // Facts about the shipped table
  // ---------------------------------------------------------------------------

  /** Every city in the table has a positive population, so every popup has a
      per-capita figure. */
  lemma TablePopulationsPositive()
    ensures forall c :: c in CityData ==> c.populationM > 0.0
  {
    assert forall c :: c in North ==> c.populationM > 0.0;
    assert forall c :: c in South ==> c.populationM > 0.0;
    assert forall c :: c in West ==> c.populationM > 0.0;
    assert forall c :: c in East ==> c.populationM > 0.0;
    assert forall c :: c in Northeast ==> c.populationM > 0.0;
    assert forall c :: c in Central ==> c.populationM > 0.0;
  }

  /** Emissions of each region of the table. */
  lemma RegionEmissions()
    ensures TotalEmissions(North) == 95.0
    ensures TotalEmissions(South) == 84.0
    ensures TotalEmissions(West) == 108.0
    ensures TotalEmissions(East) == 43.0
    ensures TotalEmissions(Northeast) == 5.5
    ensures TotalEmissions(Central) == 19.0
  {
  }

  /** Population of each region of the table. */
  lemma RegionPopulations()
    ensures TotalPopulation(North) == 28.2
    ensures TotalPopulation(South) == 39.6
    ensures TotalPopulation(West) == 44.8
    ensures TotalPopulation(East) == 20.0
    ensures TotalPopulation(Northeast) == 1.25
    ensures TotalPopulation(Central) == 6.9
  {
  }

  /** Both sums of the whole table, from those of its regions. */
  lemma TableSumsFromRegions()
    ensures TotalEmissions(CityData) ==
              TotalEmissions(North) + TotalEmissions(South) + TotalEmissions(West)
              + TotalEmissions(East) + TotalEmissions(Northeast) + TotalEmissions(Central)
    ensures TotalPopulation(CityData) ==
              TotalPopulation(North) + TotalPopulation(South) + TotalPopulation(West)
              + TotalPopulation(East) + TotalPopulation(Northeast) + TotalPopulation(Central)
  {
    TotalsOfConcat(North, South);
    TotalsOfConcat(North + South, West);
    TotalsOfConcat(North + South + West, East);
    TotalsOfConcat(North + South + West + East, Northeast);
    TotalsOfConcat(North + South + West + East + Northeast, Central);
  }

  /** The table tracks 25 cities emitting 354.5 Mt/yr in all, for 140.75
      million people. */
  lemma TableTotals()
    ensures |CityData| == 25
    ensures TotalEmissions(CityData) == 354.5
    ensures TotalPopulation(CityData) == 140.75
  {
    RegionEmissions();
    RegionPopulations();
    TableSumsFromRegions();
  }

  /** The summary of the shipped table: 25 cities, 354.5 Mt/yr combined and
      ten top emitters. */
  lemma TableStats()
    ensures ComputeStats(CityData).totalCities == 25
    ensures ComputeStats(CityData).combined == 354.5
    ensures |ComputeStats(CityData).top10| == 10
  {
    TableTotals();
  }

  /** The shipped table's average: 354.5 Mt over 140.75 million people and 25
      cities. */
  lemma TableAverage()
    ensures AveragePerCapita(CityData) == Some(354.5 / 140.75 / 25.0)
  {
    TableTotals();
  }

  /** City names are pairwise distinct, which the top-emitter list relies on
      as its item key. */
  lemma TableCityNamesDistinct()
    ensures forall i, j :: 0 <= i < j < |CityData| ==> CityData[i].city != CityData[j].city
  {
  }
}

=== FILE: wrappers.dfy ===
/** A value that may be absent: JavaScript's `null`/`undefined`, and `NaN` where a
    number failed to parse or a division had no finite result. */
module Wrappers {

  datatype Option<+T> = None | Some(value: T) {

    /** The wrapped value, or `default` when absent (JavaScript's `x ?? default`). */
    function OrElse(default: T): T
    {
      match this
      case Some(v) => v
      case None => default
    }
  }
}
